=== FILE: README.md ===
# Bundesliga Wikipedia scraper — table interpretation in Dafny

The scraper reads the German Wikipedia page of each Bundesliga season and turns two kinds of
`wikitable` into records: the league standings (a regular grid) and the top goalscorers (an
irregular table with merged cells, flag spans, links and hidden sort keys). This project
models the part of `scraper/scraping.py` that interprets an already-parsed table tree.
`scraping.py` at the repository root is a byte-identical copy of the same file. It covers:

- the goalscorer row fold `GoalscorerScraper.parse_topscorers`. Its state is the rowspan
  countdown (`row_span_index`), the last declared span (`row_span_start`), the two rowspan
  caches (`Pl.` and `Tore`) and `last_pl`. It reads every cell by the fixed rules (hidden span
  of the last element, nationality span, anchor count, `lstrip("0")`, empty-placement
  fallback), injects carried values and zips each row against the five fixed labels
  (module `Topscorers`);
- the goalscorer table test `is_topscorer_table` and the first-match pick of the table
  (module `Selection`);
- the standings reader `Standings_Scraper.parse_standings` (module `Standings`);
- the season label `f"{season}/{str(season + 1)[-2:]}"` (module `Season`);
- the two `scrape` methods from the list of wikitables on, with a failed fetch given as `None`
  (module `Scrape`).

The parsed HTML is modelled by immutable values (module `Dom`). A cell is a th or td with an
optional integer `rowspan`, an optional `title` and an ordered list of segments: plain text,
`<span>` and `<a>`. `get_text(strip=True)` is the concatenation of the stripped segment
texts, with Python's `str.strip` whitespace set (module `Strings`). The Python exceptions the
table code can raise are `ScrapeError` values inside a `Result`:
- `headers[i]` for a row of more than five elements;
- `last_pl.lstrip` while `last_pl` is `None`;
- `[...][0]` with no qualifying table;
- `rows[0]` of an empty standings table.

Every row of the goalscorer fold is recorded as a `RowStep`: skipped as a note row, or scanned
into its values, with a flag saying whether the cached span values were put around them. The
records are derived from that trace. This is what lets the lemmas speak about which rows get
the carried values.

Points where the code's behaviour is easy to misread:
- Cached values are zero-stripped when they are cached and injected as they are. They are
  not stripped again when used.
- The injection is decided by the countdown alone (`1 <= row_span_index < row_span_start`
  after the row's own cells), not by the row being short.
- `lstrip("0")` applies to every non-empty value, names included, not only to placement- and
  goals-like values.
- The hidden span is removed from the last element of every row, whichever column that
  element is.
- `last_pl` takes the value of the row's first element whenever that value is non-empty. In a
  row whose placement cell is spanned from above, the first element is the player cell, so
  `last_pl` becomes the player's name (`Topscorers.ScanCell` states this update as written).

## Model

| member | source | states |
|---|---|---|
| Strings.StripSpec | scraper/scraping.py:110 | `get_text(strip=True)` keeps a contiguous part of the text that neither starts nor ends with whitespace, and everything removed before and after it is whitespace |
| Strings.LStripZeros | scraper/scraping.py:147-149 | `lstrip("0")` returns a suffix of its input that does not start with '0', and everything it removed is '0' |
| Strings.LStripZerosUnique | scraper/scraping.py:177 | any split into a run of zeros and a rest not starting with '0' is the split `lstrip("0")` finds |
| Strings.LStripZerosIdempotent | scraper/scraping.py:181 | stripping zeros twice is stripping them once ("03" -> "3" -> "3") |
| Strings.Contains | scraper/scraping.py:111-112 | the substring test `needle in hay` is true exactly when the needle occurs at some position of the text |
| Dom.CellsOfKind | scraper/scraping.py:127-128 | `find_all("th")` / `find_all("td")` keep only cells of the asked kind and never more cells than the row has |
| Dom.CellsOfKindMembers | scraper/scraping.py:127-128 | a cell is returned by `find_all` exactly when it is a cell of the row of the asked kind |
| Dom.CellsOfKindSnoc | scraper/scraping.py:127-128 | `find_all` keeps document order: a further cell of the asked kind is returned after all earlier ones, a cell of the other kind is not returned |
| Dom.HeaderTextsMembers | scraper/scraping.py:110 | a text is among the goalscorer test's header texts exactly when some th cell of some row of the table has that text |
| Dom.AnchorTextsInText | scraper/scraping.py:160-169 | the stripped text of every anchor of a cell occurs in the cell's stripped text |
| Dom.FirstSpanInText | scraper/scraping.py:154-158 | the stripped text of the first span of a cell occurs in the cell's stripped text |
| Dom.ElementsOrder | scraper/scraping.py:127-129 | `ths + tds` is a permutation of the row's cells in which every th comes before every td |
| Dom.DropFirstSpanSplit | scraper/scraping.py:139 | in a cell whose first span is `h`, `find('span')` finds `h` and `decompose()` removes exactly that span, keeping everything before and after it |
| Dom.DropFirstSpanText | scraper/scraping.py:139 | after the first span is removed, the cell text is the text before it joined with the text after it |
| Dom.DropFirstSpanAnchors | scraper/scraping.py:139 | removing the first span leaves the anchor texts of the cell unchanged |
| Dom.DropFirstSpanNoSpan | scraper/scraping.py:139 | a cell without spans has no span to find and is not changed by the removal |
| Records.Zip | scraper/scraping.py:196-198 | the entry's keys are exactly the labels of the first `min(len(cols), len(headers))` positions, and with a repeated label the later column's value wins |
| Records.ZipDistinct | scraper/scraping.py:196-198 | with pairwise distinct labels (such as the five fixed goalscorer labels) every value up to the shorter length lands under its own label |
| Selection.IsTopscorerTableMeaning | scraper/scraping.py:109-112 | a table passes `is_topscorer_table` exactly when some th cell of some row shows "Spieler" or "Name" in its text and some th cell shows "Tore" |
| Selection.FirstQualifying | scraper/scraping.py:216 | the position it returns is the first table that passes `is_topscorer_table`, and no earlier table passes it |
| Selection.Qualifying | scraper/scraping.py:216 | the comprehension keeps only qualifying tables and keeps every one of them; it is empty exactly when no table qualifies and otherwise starts with the first qualifying table |
| Selection.SelectTopscorerTable | scraper/scraping.py:216 | the pick fails (IndexError) exactly when no table qualifies; otherwise it is the first qualifying table in document order |
| Standings.HeaderLabel | scraper/scraping.py:71 | `title or text`: a column label is the th's `title` when present and non-empty, else the th's text, so a label is empty exactly when the title is missing or empty and the text is empty too |
| Standings.HeaderLabels | scraper/scraping.py:71 | there is one label per th of the header row, and the k-th label is the label of the k-th th |
| Standings.DataTexts | scraper/scraping.py:74 | there is one value per td of a row, and the k-th value is the stripped text of the k-th td |
| Standings.Entries | scraper/scraping.py:73-83 | there is one entry per row with a td cell, and each entry's keys are labels |
| Standings.EntriesSnoc | scraper/scraping.py:73-83 | entries follow row order: one more row appends its entry, if it has one, at the end |
| Standings.ParseStandings | scraper/scraping.py:66-84 | fails exactly for a table without rows; the header row is never emitted; there is one entry per later row with a td; every key is the label of a th of the header row; the entries are those of the row loop run with the labels of the header row |
| Season.DigitChar | scraper/scraping.py:88 | a digit character denotes its digit |
| Season.NatToString | scraper/scraping.py:88 | `str(n)` is a non-empty string of decimal digits without a leading zero |
| Season.NatToStringRoundTrip | scraper/scraping.py:88 | reading `str(n)` back as a decimal gives `n` |
| Season.IntToStringRoundTrip | scraper/scraping.py:88 | `str(n)` is an integer literal, starts with '-' exactly for a negative `n`, and `int(str(n)) == n` for every integer |
| Season.LastTwo | scraper/scraping.py:88 | `s[-2:]` is the suffix of length two, or all of a shorter string |
| Season.LastTwoDigits | scraper/scraping.py:88 | for a number of two or more digits, the last two characters of `str(n)` are its tens and units digits |
| Season.SeasonSuffixValue | scraper/scraping.py:88 | for every season from 9 on (all seasons the program scrapes, 2005-2024), the two characters after the '/' denote the following year modulo 100 |
| Season.SeasonLabelShape | scraper/scraping.py:87-88 | for every season from 9 on (all seasons the program scrapes, 2005-2024), the label is the season's digits, a '/', and two digits for the following year modulo 100; the season can be read back from the label |
| Season.SeasonLabelExamples | scraper/scraping.py:204-205 | 2005 gives "2005/06" and 2099 gives "2099/00" |
| Topscorers.HeadersDistinct | scraper/scraping.py:117 | the five labels are pairwise distinct and only the first is "Pl." |
| Topscorers.NationalityInText | scraper/scraping.py:152-158 | a nationality is taken exactly when the first span's text is non-empty and not all digits; it is that text, and it occurs in the cell's text |
| Topscorers.CellValueInText | scraper/scraping.py:160-171 | the value always occurs in the cell's text; with one or two anchors it is one of the anchor texts, with none or more than two it is the whole cell text |
| Topscorers.MarkerAndValue | scraper/scraping.py:173-177 | the nationality, if any, is an element of its own and comes before the zero-stripped value, if that is non-empty |
| Topscorers.ScanCell | scraper/scraping.py:135-181 | one cell fails exactly for a sixth or later element, or for an empty first element with no earlier placement; the span and cache rules hold; `last_pl` changes only to a non-empty first-element value; the cell adds its nationality, then its zero-stripped value or the zero-stripped placement fallback |
| Topscorers.DeclaredSpanIsLast | scraper/scraping.py:142-145 | the span a row leaves in force is 0 exactly when no element has a rowspan above 1, and otherwise the rowspan of the last element that has one |
| Topscorers.ScanCells | scraper/scraping.py:135-181 | a row of more than five elements fails; after the row the countdown follows the last declared span, or is unchanged when none was declared; a set cache is never cleared; the first element always adds a value |
| Topscorers.RowValuesTail | scraper/scraping.py:176-181 | only the first element reads `last_pl`: the values of the later elements do not depend on it |
| Topscorers.ScanCellsValues | scraper/scraping.py:135-181 | the values the cell loop collects are each cell's own values (nationality, then the zero-stripped value or placement fallback) concatenated in element order, independent of the span state |
| Topscorers.ProcessRow | scraper/scraping.py:125-187 | a note row (exactly one element) is skipped before any state change; the countdown restarts at a declared span and goes down by one per scanned row; the caches change only at a declaration; the cached Pl. and Tore go around the row exactly when no span was declared and the countdown is between 1 and the span length; other rows hold only real values |
| Topscorers.ProcessRowValues | scraper/scraping.py:183-186 | a scanned row's value list is the row's own cell values, with the cached Pl. in front and the cached Tore at the end exactly when the row is carried |
| Topscorers.RowRecord | scraper/scraping.py:183-198 | the record of an uncarried row maps the k-th label to the row's k-th value; a carried row maps Pl. to the cached placement, the next labels to its own values in order and the label after them to the cached goals |
| Topscorers.RunRowsAt | scraper/scraping.py:129-133 | in a finished loop a row was skipped exactly when it is a note row, and no row is wider than five elements |
| Topscorers.Assemble | scraper/scraping.py:193-198 | the entry maps `headers[i]` to `cols[i]` for every position below both lengths, and has no other keys |
| Topscorers.Emitted | scraper/scraping.py:189-199 | every emitted record has a "Pl." key and only keys among the five labels, and there are no more records than rows |
| Topscorers.EmittedSnoc | scraper/scraping.py:189-199 | records follow row order: one more scanned row with values appends its record at the end, any other row appends nothing |
| Topscorers.RecordCountBounds | scraper/scraping.py:189-199 | the number of records is at least the number of rows with two or more elements and at most the number of rows that are not note rows |
| Topscorers.ParseTopscorers | scraper/scraping.py:114-200 | records have a "Pl." key and keys among the five labels; their number lies between the number of rows with two or more elements and the number of non-note rows; a data row with more than five elements makes the parse fail; the parse fails exactly when the row loop fails, and the records are those of the loop's steps; a table without rows has no records |
| Topscorers.NoNoteRowsNoLoss | scraper/scraping.py:131-133 | a table without note rows yields exactly one record per data row |
| Topscorers.HiddenMarkerIgnored | scraper/scraping.py:137-181 | the last element yields exactly what the same cell without its first span yields as an ordinary element: the hidden marker reaches neither the caches, the nationality, the value nor `last_pl` |
| Topscorers.HiddenSpanRemoved | scraper/scraping.py:137-139 | the last element is read as the cell without its first span; the hidden text is part of the raw cell text but not of the text read |
| Topscorers.QuietRow | scraper/scraping.py:131-187 | a note row, or a row that declares no span, keeps start and caches, counts the countdown down unless it is a note row, and gets the cached values exactly when the countdown is in range |
| Topscorers.QuietFirstStep | scraper/scraping.py:125-187 | the first step of a loop over rows that declare no span, and the state it hands to the rest of the loop |
| Topscorers.CarryAt | scraper/scraping.py:183-187 | while no row declares a span, row k gets the cached values exactly when the countdown less the number of earlier scanned rows is between 1 and the span length |
| Topscorers.SpanLasts | scraper/scraping.py:142-187 | a rowspan n > 1 puts the cached Pl. in front of and the cached Tore after the values of exactly the next n - 1 scanned rows, as long as no later row that is read declares a new span (a note row's rowspan is never read); the declaring row gets nothing injected |
| Topscorers.LaterCellsKeep | scraper/scraping.py:146-176 | the elements after the first change neither `last_pl` nor the Pl. cache |
| Topscorers.LaterCellsTore | scraper/scraping.py:143-149 | the elements from a position on leave the Tore cache unchanged when none declares a span, and otherwise set it to the zero-stripped text of the last one that does |
| Topscorers.RowCaches | scraper/scraping.py:135-181 | after a row's cells, `last_pl` is the first element's value if non-empty, else unchanged; the Pl. cache is the first element's zero-stripped text if it declares a span, else unchanged; the Tore cache is the text of the last later declaring element, else unchanged |
| Topscorers.ProcessRowCaches | scraper/scraping.py:125-187 | a scanned row hands exactly those `last_pl` and cache values on to the next row |
| Topscorers.SpanFill | scraper/scraping.py:142-198 | after a row that declares a span, every carried row's record maps Pl. to the cache the declaring row left (its first element's zero-stripped text when that element declares the span) and the carried row ends with the Tore cache that row left |
| Topscorers.NoSpanNoCarry | scraper/scraping.py:119-121 | each table starts with a fresh span state: while no row declares a span, no row of the table gets carried values |
| Topscorers.FirstPlacementNeeded | scraper/scraping.py:122-181 | each table starts without a last placement: a first data row whose first element has an empty value makes the parse fail with the missing-placement error |
| Scrape.ScrapeTopscorers | scraper/scraping.py:207-219 | a failed fetch gives `None`; no qualifying table is a failure; otherwise the scrape succeeds exactly when the parse of the first qualifying table does, and its result is that parse's records |
| Scrape.ScrapeStandings | scraper/scraping.py:91-105 | a failed fetch gives `None`; a page without wikitables gives an empty list; otherwise it fails exactly when the first wikitable has no rows, and its result is the entries `parse_standings` reads from the first wikitable, one per data row |

## Left out

- `fetch_with_retry` (network requests, status handling, random back-off sleeps) is I/O and randomness. Its outcome is the `Option` page given to the `Scrape` functions.
- `BundesligaScraper.scrape` (the season loop and the JSON file write) is I/O around the modelled functions.
- The URL strings, all `print` logging and the `__main__` block have no effect on the records.
- `BeautifulSoup` parsing and `find_all("table", {"class": "wikitable"})` belong to a foreign library. The model starts from their output: a list of tables.
- Nested markup is flattened. A cell is one ordered list of text, span and anchor segments, so anchors inside spans and nested tables are not represented.
- A non-integer `rowspan` attribute makes `int()` raise ValueError. The model's rowspan is an `Option<int>`, so this error is not represented.
- Strings.IsDigits: `str.isdigit` is modelled for the ASCII digits only. Other Unicode digit characters are treated as non-digits.
- Topscorers.RunRows: its own contract states only the length of the trace. Its per-row facts are the lemmas `RunRowsAt`, `CarryAt`, `SpanLasts` and `SpanFill`.
- The mutation of the parsed tree by `decompose()` is modelled as reading the cell without its first span. Each element is read once per parse, so nothing else observes the change.

=== FILE: dom.dfy ===
/** The already-parsed HTML table tree the scraper works on, as immutable values.
    A cell's content is a flat, ordered list of segments: plain text, `<span>` elements
    and `<a>` anchors, each with its raw (unstripped) text. */
module Dom {
  import opened Wrappers
  import opened Strings

  datatype Segment = Str(s: string) | Span(s: string) | Anchor(s: string)

  /** A `<th>` (isHeader) or `<td>` element with its `rowspan` and `title` attributes. */
  datatype Cell = Cell(isHeader: bool, rowspan: Option<int>, title: Option<string>, segments: seq<Segment>)

  /** A `<tr>` element: its th and td children in document order. */
  datatype Row = Row(cells: seq<Cell>)

  /** A `<table class="wikitable">` element: its `<tr>` rows in document order. */
  datatype Table = Table(rows: seq<Row>)

  /** The exceptions the scraper's table code raises, as values. */
  datatype ScrapeError =
    | ColumnOutOfRange    // `headers[i]` with a row of more than five elements (IndexError)
    | NoPlacementToReuse  // `last_pl.lstrip("0")` while `last_pl` is still None (AttributeError)
    | NoTopscorerTable    // `[...][0]` on an empty list of qualifying tables (IndexError)
    | NoHeaderRow         // `rows[0]` of a table without rows (IndexError)

  /** `get_text(strip=True)` of a segment list: every text stripped, then concatenated. */
  function JoinTexts(gs: seq<Segment>): string {
    if gs == [] then [] else Strip(gs[0].s) + JoinTexts(gs[1..])
  }

  /** `get_text(strip=True)` of a cell. */
  function CellText(c: Cell): string {
    JoinTexts(c.segments)
  }

  /** The stripped texts of the anchors, in order: `[a.get_text(strip=True) for a in td.find_all('a')]`. */
  function AnchorTexts(gs: seq<Segment>): (r: seq<string>)
    ensures |r| <= |gs|
  {
    if gs == [] then []
    else (if gs[0].Anchor? then [Strip(gs[0].s)] else []) + AnchorTexts(gs[1..])
  }

  /** Every anchor's text shows up in the segments' joined text. */
  lemma {:induction false} AnchorTextsInText(gs: seq<Segment>)
    ensures forall a :: a in AnchorTexts(gs) ==> exists i :: OccursAt(a, JoinTexts(gs), i)
  {
    if gs != [] {
      var head, rest := Strip(gs[0].s), gs[1..];
      AnchorTextsInText(rest);
      assert JoinTexts(gs) == head + JoinTexts(rest) + [];
      forall a | a in AnchorTexts(gs)
        ensures exists i :: OccursAt(a, JoinTexts(gs), i)
      {
        if gs[0].Anchor? && a == head {
          OccursInContext(head, [], head, JoinTexts(rest), 0);
        } else {
          assert a in AnchorTexts(rest);
          var i :| OccursAt(a, JoinTexts(rest), i);
          OccursInContext(a, head, JoinTexts(rest), [], i);
        }
      }
      assert forall a :: a in AnchorTexts(gs) ==> exists i :: OccursAt(a, JoinTexts(gs), i);
    }
  }

  predicate NoSpan(gs: seq<Segment>) {
    forall k :: 0 <= k < |gs| ==> !gs[k].Span?
  }

  /** The stripped text of the first span, if the segments hold one: `td.find('span')`. */
  function FirstSpanText(gs: seq<Segment>): Option<string> {
    if gs == [] then None
    else if gs[0].Span? then Some(Strip(gs[0].s))
    else FirstSpanText(gs[1..])
  }

  /** The first span's text shows up in the segments' joined text. */
  lemma {:induction false} FirstSpanInText(gs: seq<Segment>)
    ensures FirstSpanText(gs).Some? ==> exists i :: OccursAt(FirstSpanText(gs).value, JoinTexts(gs), i)
  {
    if gs != [] {
      var head, rest := Strip(gs[0].s), gs[1..];
      assert JoinTexts(gs) == head + JoinTexts(rest) + [];
      if gs[0].Span? {
        OccursInContext(head, [], head, JoinTexts(rest), 0);
      } else if FirstSpanText(rest).Some? {
        FirstSpanInText(rest);
        var i :| OccursAt(FirstSpanText(rest).value, JoinTexts(rest), i);
        OccursInContext(FirstSpanText(rest).value, head, JoinTexts(rest), [], i);
      }
    }
  }

  /** The segments with the first span removed: `td.find('span').decompose()`. */
  function DropFirstSpan(gs: seq<Segment>): seq<Segment> {
    if gs == [] then []
    else if gs[0].Span? then gs[1..]
    else [gs[0]] + DropFirstSpan(gs[1..])
  }

  lemma {:induction false} JoinTextsAppend(p: seq<Segment>, q: seq<Segment>)
    ensures JoinTexts(p + q) == JoinTexts(p) + JoinTexts(q)
  {
    if p == [] {
      assert p + q == q;
    } else {
      assert (p + q)[0] == p[0];
      assert (p + q)[1..] == p[1..] + q;
      JoinTextsAppend(p[1..], q);
      calc {
        JoinTexts(p + q);
        Strip(p[0].s) + JoinTexts(p[1..] + q);
        Strip(p[0].s) + (JoinTexts(p[1..]) + JoinTexts(q));
      }
    }
  }

  lemma {:induction false} AnchorTextsAppend(p: seq<Segment>, q: seq<Segment>)
    ensures AnchorTexts(p + q) == AnchorTexts(p) + AnchorTexts(q)
  {
    if p == [] {
      assert p + q == q;
    } else {
      assert (p + q)[0] == p[0];
      assert (p + q)[1..] == p[1..] + q;
      AnchorTextsAppend(p[1..], q);
    }
  }

  /** Removing the first span of `p + [Span(h)] + q` (where `p` has no span) leaves `p + q`,
      and the span it takes away is the one `td.find('span')` reports. */
  lemma {:induction false} DropFirstSpanSplit(p: seq<Segment>, h: string, q: seq<Segment>)
    requires NoSpan(p)
    ensures FirstSpanText(p + [Span(h)] + q) == Some(Strip(h))
    ensures DropFirstSpan(p + [Span(h)] + q) == p + q
  {
    var gs := p + [Span(h)] + q;
    if p == [] {
      assert gs[0] == Span(h) && gs[1..] == q;
    } else {
      assert gs[0] == p[0] && gs[1..] == p[1..] + [Span(h)] + q;
      DropFirstSpanSplit(p[1..], h, q);
      assert [p[0]] + (p[1..] + q) == p + q;
    }
  }

  /** The span's text is part of the cell text, between the texts before and after it. */
  lemma {:induction false} SpanTextInCell(p: seq<Segment>, h: string, q: seq<Segment>)
    ensures JoinTexts(p + [Span(h)] + q) == JoinTexts(p) + Strip(h) + JoinTexts(q)
  {
    SpanSplitAssoc(p, h, q);
    SpanCons(h, q);
    JoinTextsAppend(p, [Span(h)] + q);
  }

  /** Removing the first span takes exactly its text out of the cell text. */
  lemma {:induction false} DropFirstSpanText(p: seq<Segment>, h: string, q: seq<Segment>)
    requires NoSpan(p)
    ensures JoinTexts(DropFirstSpan(p + [Span(h)] + q)) == JoinTexts(p) + JoinTexts(q)
  {
    DropFirstSpanSplit(p, h, q);
    JoinTextsAppend(p, q);
  }

  /** Removing the first span leaves the anchors untouched. */
  lemma {:induction false} DropFirstSpanAnchors(p: seq<Segment>, h: string, q: seq<Segment>)
    requires NoSpan(p)
    ensures AnchorTexts(DropFirstSpan(p + [Span(h)] + q)) == AnchorTexts(p + [Span(h)] + q)
  {
    DropFirstSpanSplit(p, h, q);
    SpanSplitAssoc(p, h, q);
    SpanCons(h, q);
    AnchorTextsAppend(p, [Span(h)] + q);
    AnchorTextsAppend(p, q);
  }

  lemma SpanSplitAssoc(p: seq<Segment>, h: string, q: seq<Segment>)
    ensures p + [Span(h)] + q == p + ([Span(h)] + q)
  {
  }

  lemma SpanCons(h: string, q: seq<Segment>)
    ensures JoinTexts([Span(h)] + q) == Strip(h) + JoinTexts(q)
    ensures AnchorTexts([Span(h)] + q) == AnchorTexts(q)
  {
    var sq := [Span(h)] + q;
    assert sq[0] == Span(h) && sq[1..] == q;
  }

  /** A segment list without spans is left alone by the removal. */
  lemma {:induction false} DropFirstSpanNoSpan(gs: seq<Segment>)
    requires NoSpan(gs)
    ensures FirstSpanText(gs) == None
    ensures DropFirstSpan(gs) == gs
  {
    if gs != [] {
      DropFirstSpanNoSpan(gs[1..]);
    }
  }

  /** The cells of `cells` whose kind (th or td) is `header`, in document order. */
  function CellsOfKind(cells: seq<Cell>, header: bool): (r: seq<Cell>)
    ensures |r| <= |cells|
    ensures forall k :: 0 <= k < |r| ==> r[k].isHeader == header
  {
    if cells == [] then []
    else (if cells[0].isHeader == header then [cells[0]] else []) + CellsOfKind(cells[1..], header)
  }

  lemma {:induction false} CellsOfKindMembers(cells: seq<Cell>, header: bool)
    ensures forall c :: c in CellsOfKind(cells, header) <==> c in cells && c.isHeader == header
  {
    if cells != [] {
      CellsOfKindMembers(cells[1..], header);
      assert cells == [cells[0]] + cells[1..];
    }
  }

  /** The filter keeps document order: one more cell at the end lands at the end, if kept. */
  lemma {:induction false} CellsOfKindSnoc(cells: seq<Cell>, c: Cell, header: bool)
    ensures CellsOfKind(cells + [c], header) == CellsOfKind(cells, header) + (if c.isHeader == header then [c] else [])
  {
    if cells == [] {
      assert cells + [c] == [c];
      assert [c][1..] == [];
    } else {
      assert (cells + [c])[0] == cells[0];
      assert (cells + [c])[1..] == cells[1..] + [c];
      CellsOfKindSnoc(cells[1..], c, header);
    }
  }

  /** `row.find_all("th") + row.find_all("td")`: all th cells first, then all td cells, whatever
      the document interleaving. */
  function Elements(row: Row): seq<Cell> {
    CellsOfKind(row.cells, true) + CellsOfKind(row.cells, false)
  }

  /** The element order: every th cell comes before every td cell, and the elements are the
      row's cells, none lost and none repeated. */
  lemma ElementsOrder(row: Row)
    ensures multiset(Elements(row)) == multiset(row.cells)
    ensures forall k :: 0 <= k < |Elements(row)| ==> (Elements(row)[k].isHeader <==> k < |CellsOfKind(row.cells, true)|)
  {
    KindsPartition(row.cells);
  }

  lemma {:induction false} KindsPartition(cells: seq<Cell>)
    ensures multiset(CellsOfKind(cells, true)) + multiset(CellsOfKind(cells, false)) == multiset(cells)
  {
    if cells != [] {
      var c, rest := cells[0], cells[1..];
      KindsPartition(rest);
      assert cells == [c] + rest;
      if c.isHeader {
        assert CellsOfKind(cells, true) == [c] + CellsOfKind(rest, true);
        assert CellsOfKind(cells, false) == CellsOfKind(rest, false);
      } else {
        assert CellsOfKind(cells, true) == CellsOfKind(rest, true);
        assert CellsOfKind(cells, false) == [c] + CellsOfKind(rest, false);
      }
    }
  }

  /** `[th.get_text(strip=True) for th in table.find_all("th")]`: the texts of every header cell
      of every row, in document order. */
  function HeaderTexts(rows: seq<Row>): seq<string> {
    if rows == [] then []
    else
      var ths := CellsOfKind(rows[0].cells, true);
      seq(|ths|, k requires 0 <= k < |ths| => CellText(ths[k])) + HeaderTexts(rows[1..])
  }

  /** A text is among the header texts exactly when some th cell of some row carries it. */
  lemma {:induction false} HeaderTextsMembers(rows: seq<Row>)
    ensures forall h :: h in HeaderTexts(rows) <==>
              exists j, th :: 0 <= j < |rows| && th in rows[j].cells && th.isHeader && CellText(th) == h
  {
    if rows != [] {
      var ths := CellsOfKind(rows[0].cells, true);
      var own := seq(|ths|, k requires 0 <= k < |ths| => CellText(ths[k]));
      HeaderTextsMembers(rows[1..]);
      CellsOfKindMembers(rows[0].cells, true);
      forall h ensures h in HeaderTexts(rows) <==>
                 exists j, th :: 0 <= j < |rows| && th in rows[j].cells && th.isHeader && CellText(th) == h
      {
        if h in own {
          var k :| 0 <= k < |ths| && own[k] == h;
          assert ths[k] in rows[0].cells;
        }
        if exists j, th :: 0 <= j < |rows| && th in rows[j].cells && th.isHeader && CellText(th) == h {
          var j, th :| 0 <= j < |rows| && th in rows[j].cells && th.isHeader && CellText(th) == h;
          if j == 0 {
            var k :| 0 <= k < |ths| && ths[k] == th;
            assert own[k] == h;
          } else {
            assert rows[1..][j - 1] == rows[j];
          }
        }
        if h in HeaderTexts(rows[1..]) {
          var j, th :| 0 <= j < |rows[1..]| && th in rows[1..][j].cells && th.isHeader && CellText(th) == h;
          assert rows[j + 1] == rows[1..][j];
        }
      }
    }
  }
}

=== FILE: records.dfy ===
/** Building one record from a row's values: `entry[headers[i]] = col` for every
    `i < len(headers)`, in column order. */
module Records {

  function Min(a: int, b: int): int {
    if a < b then a else b
  }

  /** Position `i` is the last of the first `n` headers to carry the label `headers[i]`. */
  predicate LastOccurrence(headers: seq<string>, n: int, i: int)
    requires 0 <= i < n <= |headers|
  {
    forall j :: i < j < n ==> headers[j] != headers[i]
  }

  /** Zip the values against the headers. Values past the last header are dropped, missing
      values leave their header out of the record, and with a repeated header the later
      column wins. */
  function Zip<V>(headers: seq<string>, vals: seq<V>): (r: map<string, V>)
    ensures r.Keys == set i | 0 <= i < Min(|headers|, |vals|) :: headers[i]
    ensures forall i :: 0 <= i < Min(|headers|, |vals|) && LastOccurrence(headers, Min(|headers|, |vals|), i) ==>
              r[headers[i]] == vals[i]
  {
    ZipFirst(headers, vals, Min(|headers|, |vals|))
  }

  /** The record built from the first `n` columns. */
  function ZipFirst<V>(headers: seq<string>, vals: seq<V>, n: nat): (r: map<string, V>)
    requires n <= |headers| && n <= |vals|
    ensures r.Keys == set i | 0 <= i < n :: headers[i]
    ensures forall i :: 0 <= i < n && LastOccurrence(headers, n, i) ==> r[headers[i]] == vals[i]
  {
    if n == 0 then map[]
    else ZipFirst(headers, vals, n - 1)[headers[n - 1] := vals[n - 1]]
  }

  /** With pairwise distinct headers every zipped column lands under its own header. */
  lemma ZipDistinct<V>(headers: seq<string>, vals: seq<V>)
    requires forall i, j :: 0 <= i < j < |headers| ==> headers[i] != headers[j]
    ensures forall i :: 0 <= i < Min(|headers|, |vals|) ==> headers[i] in Zip(headers, vals) && Zip(headers, vals)[headers[i]] == vals[i]
  {
    var n := Min(|headers|, |vals|);
    forall i | 0 <= i < n
      ensures headers[i] in Zip(headers, vals) && Zip(headers, vals)[headers[i]] == vals[i]
    {
      assert LastOccurrence(headers, n, i);
    }
  }
}

=== FILE: scrape.dfy ===
/** The per-season entry points of the two scrapers, from the page's wikitables on. The page
    is `None` when fetching it failed after every retry. */
module Scrape {
  import opened Wrappers
  import opened Dom
  import opened Selection
  import opened Standings
  import opened Topscorers

  /** `GoalscorerScraper.scrape` after the fetch: nothing for a page that could not be fetched,
      otherwise the records of the first wikitable that qualifies as a goalscorer table. */
  function ScrapeTopscorers(page: Option<seq<Table>>): (r: Result<Option<seq<Record>>, ScrapeError>)
    ensures page.None? ==> r == Success(None)
    ensures page.Some? && (forall i :: 0 <= i < |page.value| ==> !IsTopscorerTable(page.value[i])) ==>
              r == Failure(NoTopscorerTable)
    ensures page.Some? && r.Success? ==>
              var i := FirstQualifying(page.value);
              && i < |page.value| && r.value.Some?
              && ParseTopscorers(page.value[i]) == Success(r.value.value)
    ensures page.Some? && r.Failure? && r.error != NoTopscorerTable ==>
              ParseTopscorers(page.value[FirstQualifying(page.value)]).Failure?
    ensures page.Some? && FirstQualifying(page.value) < |page.value| ==>
              (r.Success? <==> ParseTopscorers(page.value[FirstQualifying(page.value)]).Success?)
  {
    match page
    case None => Success(None)
    case Some(tables) =>
      var table :- SelectTopscorerTable(tables);
      var records :- ParseTopscorers(table);
      Success(Some(records))
  }

  /** `Standings_Scraper.scrape` after the fetch: nothing for a page that could not be fetched,
      an empty standings list for a page without wikitables, otherwise the entries of the first
      wikitable. */
  function ScrapeStandings(page: Option<seq<Table>>): (r: Result<Option<seq<Entry>>, ScrapeError>)
    ensures page.None? ==> r == Success(None)
    ensures page == Some([]) ==> r == Success(Some([]))
    ensures page.Some? && |page.value| > 0 ==>
              (r.Failure? <==> |page.value[0].rows| == 0)
    ensures page.Some? && |page.value| > 0 && r.Success? ==>
              r.value.Some? && |r.value.value| == DataRowCount(page.value[0].rows[1..])
    ensures page.Some? && |page.value| > 0 && r.Success? ==>
              r.value == Some(ParseStandings(page.value[0]).value)
  {
    match page
    case None => Success(None)
    case Some(tables) =>
      if |tables| == 0 then Success(Some([]))
      else
        var entries :- ParseStandings(tables[0]);
        Success(Some(entries))
  }
}

=== FILE: season.dfy ===
/** The season label `f"{season}/{str(season + 1)[-2:]}"`, e.g. 2005 -> "2005/06". */
module Season {

  function DigitChar(d: int): (c: char)
    requires 0 <= d < 10
    ensures '0' <= c <= '9'
    ensures c as int - '0' as int == d
  {
    "0123456789"[d]
  }

  function DigitValue(c: char): (d: int)
    requires '0' <= c <= '9'
    ensures 0 <= d < 10
  {
    c as int - '0' as int
  }

  predicate AllDecimalDigits(s: string) {
    forall k :: 0 <= k < |s| ==> '0' <= s[k] <= '9'
  }

  /** Python's `str(n)` for a natural number: decimal digits, no leading zero. */
  function NatToString(n: nat): (r: string)
    ensures |r| >= 1 && AllDecimalDigits(r)
    ensures |r| > 1 ==> r[0] != '0'
  {
    if n < 10 then [DigitChar(n)] else NatToString(n / 10) + [DigitChar(n % 10)]
  }

  /** Python's `str(n)` for any integer: a '-' sign before the digits of a negative number. */
  function IntToString(n: int): (r: string)
    ensures n >= 0 ==> r == NatToString(n)
    ensures n < 0 ==> r == "-" + NatToString(-n)
  {
    if n < 0 then "-" + NatToString(-n) else NatToString(n)
  }

  /** The number a string of decimal digits denotes. */
  function DecimalValue(s: string): nat
    requires AllDecimalDigits(s)
  {
    if s == [] then 0 else DecimalValue(s[..|s| - 1]) * 10 + DigitValue(s[|s| - 1])
  }

  /** Reading the decimal string back gives the number. */
  lemma {:induction false} NatToStringRoundTrip(n: nat)
    ensures DecimalValue(NatToString(n)) == n
  {
    var r := NatToString(n);
    if n >= 10 {
      NatToStringRoundTrip(n / 10);
      assert r[..|r| - 1] == NatToString(n / 10);
    }
  }

  /** A decimal integer literal: an optional '-' and at least one digit. */
  predicate IntLiteral(s: string) {
    if |s| > 0 && s[0] == '-' then |s| >= 2 && AllDecimalDigits(s[1..]) else |s| >= 1 && AllDecimalDigits(s)
  }

  /** Python's `int(s)` on a decimal integer literal. */
  function SignedValue(s: string): int
    requires IntLiteral(s)
  {
    if s[0] == '-' then -(DecimalValue(s[1..]) as int) else DecimalValue(s)
  }

  /** `str` and `int` are inverse on the integers: the string is a literal, it starts with a
      '-' exactly for a negative number, and reading it back gives the number. */
  lemma {:induction false} IntToStringRoundTrip(n: int)
    ensures IntLiteral(IntToString(n))
    ensures IntToString(n)[0] == '-' <==> n < 0
    ensures SignedValue(IntToString(n)) == n
  {
    if n < 0 {
      NegativeLiteral(-n);
    } else {
      NaturalLiteral(n);
    }
  }

  lemma {:induction false} NaturalLiteral(m: nat)
    ensures IntLiteral(NatToString(m)) && NatToString(m)[0] != '-'
    ensures SignedValue(NatToString(m)) == m
  {
    var r := NatToString(m);
    assert '0' <= r[0] <= '9';
    NatToStringRoundTrip(m);
  }

  lemma {:induction false} NegativeLiteral(m: nat)
    ensures IntLiteral("-" + NatToString(m)) && ("-" + NatToString(m))[0] == '-'
    ensures SignedValue("-" + NatToString(m)) == -(m as int)
  {
    var d := NatToString(m);
    var r := "-" + d;
    assert r[0] == '-' && r[1..] == d;
    NatToStringRoundTrip(m);
  }

  /** Python's `s[-2:]`: the last two characters, or all of a shorter string. */
  function LastTwo(s: string): (r: string)
    ensures |r| == if |s| < 2 then |s| else 2
    ensures r == s[|s| - |r|..]
  {
    if |s| < 2 then s else s[|s| - 2..]
  }

  function SeasonLabel(season: int): string {
    IntToString(season) + "/" + LastTwo(IntToString(season + 1))
  }

  /** The last character of `str(m)` is the units digit of `m`. */
  lemma LastDigit(m: nat)
    ensures NatToString(m)[|NatToString(m)| - 1] == DigitChar(m % 10)
  {
  }

  /** The last two characters of `str(n)`, for n of at least two digits, are its tens and units digits. */
  lemma {:induction false} LastTwoDigits(n: nat)
    requires n >= 10
    ensures LastTwo(NatToString(n)) == [DigitChar(n / 10 % 10), DigitChar(n % 10)]
  {
    var s := NatToString(n / 10);
    assert NatToString(n) == s + [DigitChar(n % 10)];
    LastDigit(n / 10);
    LastTwoSnoc(s, DigitChar(n % 10));
  }

  lemma LastTwoSnoc(s: string, d: char)
    requires |s| >= 1
    ensures LastTwo(s + [d]) == [s[|s| - 1], d]
  {
    assert (s + [d])[|s| - 1..] == [s[|s| - 1], d];
  }

  lemma TensAndUnits(n: nat)
    ensures n / 10 % 10 * 10 + n % 10 == n % 100
  {
    var q, r := n / 100, n % 100;
    assert n == 100 * q + r;
    assert n / 10 == 10 * q + r / 10;
    assert n % 10 == r % 10;
  }

  /** The two characters after the '/' denote the following year modulo 100. */
  lemma {:induction false} SeasonSuffixValue(season: int)
    requires season >= 9
    ensures var s := LastTwo(IntToString(season + 1));
      AllDecimalDigits(s) && DecimalValue(s) == (season + 1) % 100
  {
    var n := season + 1;
    LastTwoDigits(n);
    var tens, units := n / 10 % 10, n % 10;
    var tail := [DigitChar(tens), DigitChar(units)];
    assert tail[..1] == [DigitChar(tens)];
    assert [DigitChar(tens)][..0] == [];
    assert DecimalValue([DigitChar(tens)]) == tens;
    assert DecimalValue(tail) == DecimalValue([DigitChar(tens)]) * 10 + DigitValue(DigitChar(units));
    TensAndUnits(n);
  }

  /** For a season from 9 on, the label is the season's digits, a '/', and two digits that
      denote the following year modulo 100; the season can be read back from the label. */
  lemma {:induction false} SeasonLabelShape(season: int)
    requires season >= 9
    ensures var s := SeasonLabel(season);
      && |s| == |NatToString(season)| + 3
      && s[..|s| - 3] == NatToString(season)
      && s[|s| - 3] == '/'
      && AllDecimalDigits(s[|s| - 2..])
      && DecimalValue(s[|s| - 2..]) == (season + 1) % 100
      && DecimalValue(s[..|s| - 3]) == season
  {
    var s := SeasonLabel(season);
    var tail := LastTwo(IntToString(season + 1));
    LastTwoDigits(season + 1);
    assert |tail| == 2;
    assert s == NatToString(season) + "/" + tail;
    assert s[..|s| - 3] == NatToString(season);
    assert s[|s| - 2..] == tail;
    SeasonSuffixValue(season);
    NatToStringRoundTrip(season);
  }

  lemma SeasonLabelExamples()
    ensures SeasonLabel(2005) == "2005/06"
    ensures SeasonLabel(2099) == "2099/00"
  {
    LastTwoDigits(2006);
    LastTwoDigits(2100);
    assert NatToString(2005) == "2005";
    assert NatToString(2099) == "2099";
  }
}

=== FILE: selection.dfy ===
/** Choosing the goalscorer table among the page's wikitables. */
module Selection {
  import opened Wrappers
  import opened Strings
  import opened Dom

  /** Some header text names the player column ("Spieler" or "Name") and some header text
      names the goals column ("Tore"). */
  predicate IsTopscorerTable(t: Table) {
    var headers := HeaderTexts(t.rows);
    (exists h :: h in headers && (Contains(h, "Spieler") || Contains(h, "Name")))
      && (exists h :: h in headers && Contains(h, "Tore"))
  }

  /** Some th cell of some row of the table has a text in which `needle` occurs. */
  ghost predicate SomeHeaderHas(t: Table, needle: string) {
    exists j, th, i :: 0 <= j < |t.rows| && th in t.rows[j].cells && th.isHeader && OccursAt(needle, CellText(th), i)
  }

  /** A header text contains `needle` exactly when some th cell of the table shows it. */
  lemma HeaderTextWith(t: Table, needle: string)
    ensures (exists h :: h in HeaderTexts(t.rows) && Contains(h, needle)) <==> SomeHeaderHas(t, needle)
  {
    HeaderTextsMembers(t.rows);
    if exists h :: h in HeaderTexts(t.rows) && Contains(h, needle) {
      var h :| h in HeaderTexts(t.rows) && Contains(h, needle);
      var j, th :| 0 <= j < |t.rows| && th in t.rows[j].cells && th.isHeader && CellText(th) == h;
      var i :| OccursAt(needle, h, i);
      assert OccursAt(needle, CellText(th), i);
    }
    if SomeHeaderHas(t, needle) {
      var j, th, i :| 0 <= j < |t.rows| && th in t.rows[j].cells && th.isHeader && OccursAt(needle, CellText(th), i);
      assert CellText(th) in HeaderTexts(t.rows) && Contains(CellText(th), needle);
    }
  }

  /** `is_topscorer_table`: some th cell of the table shows "Spieler" or "Name", and some th
      cell shows "Tore". */
  lemma IsTopscorerTableMeaning(t: Table)
    ensures IsTopscorerTable(t) <==>
              (SomeHeaderHas(t, "Spieler") || SomeHeaderHas(t, "Name")) && SomeHeaderHas(t, "Tore")
  {
    var headers := HeaderTexts(t.rows);
    HeaderTextWith(t, "Spieler");
    HeaderTextWith(t, "Name");
    HeaderTextWith(t, "Tore");
    if exists h :: h in headers && (Contains(h, "Spieler") || Contains(h, "Name")) {
      var h :| h in headers && (Contains(h, "Spieler") || Contains(h, "Name"));
      assert SomeHeaderHas(t, "Spieler") || SomeHeaderHas(t, "Name");
    }
    if SomeHeaderHas(t, "Spieler") {
      var h :| h in headers && Contains(h, "Spieler");
      assert exists h :: h in headers && (Contains(h, "Spieler") || Contains(h, "Name"));
    }
    if SomeHeaderHas(t, "Name") {
      var h :| h in headers && Contains(h, "Name");
      assert exists h :: h in headers && (Contains(h, "Spieler") || Contains(h, "Name"));
    }
  }

  /** The position of the first qualifying table, or `|tables|` when none qualifies. */
  function FirstQualifying(tables: seq<Table>): (i: nat)
    ensures i <= |tables|
    ensures forall j :: 0 <= j < i ==> !IsTopscorerTable(tables[j])
    ensures i < |tables| ==> IsTopscorerTable(tables[i])
  {
    if tables == [] then 0
    else if IsTopscorerTable(tables[0]) then 0
    else 1 + FirstQualifying(tables[1..])
  }

  /** `[t for t in tables if self.is_topscorer_table(t)]`: every qualifying table, in document
      order, so the first candidate is the first qualifying table. */
  function Qualifying(tables: seq<Table>): (r: seq<Table>)
    ensures forall k :: 0 <= k < |r| ==> IsTopscorerTable(r[k])
    ensures forall i :: 0 <= i < |tables| && IsTopscorerTable(tables[i]) ==> tables[i] in r
    ensures |r| == 0 <==> FirstQualifying(tables) == |tables|
    ensures |r| > 0 ==> r[0] == tables[FirstQualifying(tables)]
  {
    if tables == [] then []
    else
      var rest := Qualifying(tables[1..]);
      if IsTopscorerTable(tables[0]) then [tables[0]] + rest
      else
        assert forall i :: 1 <= i < |tables| ==> tables[i] == tables[1..][i - 1];
        rest
  }

  /** The selection of the goalscorer table: the first qualifying table in document order,
      or a failure when no table qualifies. */
  function SelectTopscorerTable(tables: seq<Table>): (r: Result<Table, ScrapeError>)
    ensures r.Failure? <==> forall i :: 0 <= i < |tables| ==> !IsTopscorerTable(tables[i])
    ensures r.Failure? ==> r.error == NoTopscorerTable
    ensures r.Success? ==> IsTopscorerTable(r.value)
    ensures r.Success? ==> exists i :: 0 <= i < |tables| && tables[i] == r.value && forall j :: 0 <= j < i ==> !IsTopscorerTable(tables[j])
    ensures r.Success? ==> FirstQualifying(tables) < |tables| && r.value == tables[FirstQualifying(tables)]
  {
    var candidates := Qualifying(tables);
    if |candidates| == 0 then Failure(NoTopscorerTable)
    else
      assert candidates[0] == tables[FirstQualifying(tables)];
      Success(candidates[0])
  }
}

=== FILE: standings.dfy ===
/** The league-table reader: a regular grid whose first row names the columns. */
module Standings {
  import opened Wrappers
  import opened Dom
  import opened Records

  type Entry = map<string, string>

  /** A column label: the th's `title` attribute when present and non-empty, else its text. */
  function HeaderLabel(th: Cell): (r: string)
    ensures th.title.Some? && th.title.value != "" ==> r == th.title.value
    ensures th.title.None? || th.title.value == "" ==> r == CellText(th)
    ensures r == "" <==> (th.title.None? || th.title.value == "") && CellText(th) == ""
  {
    if th.title.Some? && th.title.value != "" then th.title.value else CellText(th)
  }

  /** The labels of the th cells of the header row, in order. */
  function HeaderLabels(row: Row): (r: seq<string>)
    ensures |r| == |CellsOfKind(row.cells, true)|
    ensures forall k :: 0 <= k < |r| ==> r[k] == HeaderLabel(CellsOfKind(row.cells, true)[k])
  {
    var ths := CellsOfKind(row.cells, true);
    seq(|ths|, k requires 0 <= k < |ths| => HeaderLabel(ths[k]))
  }

  /** The stripped texts of a row's td cells, in order (th cells of data rows are ignored). */
  function DataTexts(row: Row): (r: seq<string>)
    ensures |r| == |CellsOfKind(row.cells, false)|
    ensures forall k :: 0 <= k < |r| ==> r[k] == CellText(CellsOfKind(row.cells, false)[k])
  {
    var tds := CellsOfKind(row.cells, false);
    seq(|tds|, k requires 0 <= k < |tds| => CellText(tds[k]))
  }

  predicate HasData(row: Row) {
    |DataTexts(row)| > 0
  }

  /** Number of rows that hold at least one td cell. */
  function DataRowCount(rows: seq<Row>): (n: nat)
    ensures n <= |rows|
  {
    if rows == [] then 0 else (if HasData(rows[0]) then 1 else 0) + DataRowCount(rows[1..])
  }

  /** The loop over the data rows: one entry per row with a td cell, rows without one skipped. */
  function Entries(headers: seq<string>, rows: seq<Row>): (r: seq<Entry>)
    ensures |r| == DataRowCount(rows)
    ensures forall k :: 0 <= k < |r| ==> r[k].Keys <= set i | 0 <= i < |headers| :: headers[i]
  {
    if rows == [] then []
    else
      var rest := Entries(headers, rows[1..]);
      if HasData(rows[0]) then [Zip(headers, DataTexts(rows[0]))] + rest else rest
  }

  /** Entries come out in row order: processing one more row appends its entry (if any) at the end. */
  lemma {:induction false} EntriesSnoc(headers: seq<string>, rows: seq<Row>, row: Row)
    ensures Entries(headers, rows + [row])
         == Entries(headers, rows) + (if HasData(row) then [Zip(headers, DataTexts(row))] else [])
  {
    if rows == [] {
      assert rows + [row] == [row];
      assert [row][1..] == [];
    } else {
      assert (rows + [row])[0] == rows[0];
      assert (rows + [row])[1..] == rows[1..] + [row];
      EntriesSnoc(headers, rows[1..], row);
    }
  }

  /** `parse_standings`: the first row supplies the labels and is never emitted itself; every
      later row with a td cell yields one entry, whose keys are labels of the header row. A
      table without rows fails, as `rows[0]` raises. */
  function ParseStandings(t: Table): (r: Result<seq<Entry>, ScrapeError>)
    ensures r.Failure? <==> |t.rows| == 0
    ensures r.Failure? ==> r.error == NoHeaderRow
    ensures r.Success? ==> |r.value| == DataRowCount(t.rows[1..])
    ensures r.Success? ==> r.value == Entries(HeaderLabels(t.rows[0]), t.rows[1..])
    ensures r.Success? ==> forall k :: 0 <= k < |r.value| ==>
              forall key :: key in r.value[k] ==> exists th :: th in t.rows[0].cells && th.isHeader && HeaderLabel(th) == key
  {
    if |t.rows| == 0 then Failure(NoHeaderRow)
    else
      var headers := HeaderLabels(t.rows[0]);
      var entries := Entries(headers, t.rows[1..]);
      assert forall k :: 0 <= k < |entries| ==> forall key :: key in entries[k] ==> exists th :: th in t.rows[0].cells && th.isHeader && HeaderLabel(th) == key by {
        forall k, key | 0 <= k < |entries| && key in entries[k]
          ensures exists th :: th in t.rows[0].cells && th.isHeader && HeaderLabel(th) == key
        {
          var i :| 0 <= i < |headers| && headers[i] == key;
          var ths := CellsOfKind(t.rows[0].cells, true);
          CellsOfKindMembers(t.rows[0].cells, true);
          assert ths[i] in t.rows[0].cells && ths[i].isHeader && HeaderLabel(ths[i]) == key;
        }
      }
      Success(entries)
  }
}

=== FILE: strings.dfy ===
/** String primitives the scraper relies on: Python's `str.strip()`,
    `str.lstrip("0")`, `str.isdigit()` and the substring test `needle in hay`. */
module Strings {

  /** Python's `str.isspace()` character class (the characters `str.strip()` removes). */
  predicate IsSpace(c: char) {
    c in {' ', '\t', '\n', '\r', '\U{000B}', '\U{000C}', '\U{001C}', '\U{001D}', '\U{001E}', '\U{001F}',
          '\U{0085}', '\U{00A0}', '\U{1680}', '\U{2000}', '\U{2001}', '\U{2002}', '\U{2003}', '\U{2004}',
          '\U{2005}', '\U{2006}', '\U{2007}', '\U{2008}', '\U{2009}', '\U{200A}', '\U{2028}', '\U{2029}',
          '\U{202F}', '\U{205F}', '\U{3000}'}
  }

  /** `s` with leading whitespace removed. */
  function TrimLeft(s: string): string {
    if |s| > 0 && IsSpace(s[0]) then TrimLeft(s[1..]) else s
  }

  /** `s` with trailing whitespace removed. */
  function TrimRight(s: string): string {
    if |s| > 0 && IsSpace(s[|s| - 1]) then TrimRight(s[..|s| - 1]) else s
  }

  /** Python's `s.strip()`. */
  function Strip(s: string): string {
    TrimRight(TrimLeft(s))
  }

  lemma {:induction false} TrimLeftSpec(s: string)
    ensures |TrimLeft(s)| <= |s| && TrimLeft(s) == s[|s| - |TrimLeft(s)|..]
    ensures TrimLeft(s) == [] || !IsSpace(TrimLeft(s)[0])
    ensures forall i :: 0 <= i < |s| - |TrimLeft(s)| ==> IsSpace(s[i])
  {
    if |s| > 0 && IsSpace(s[0]) {
      TrimLeftSpec(s[1..]);
    }
  }

  lemma {:induction false} TrimRightSpec(s: string)
    ensures |TrimRight(s)| <= |s| && TrimRight(s) == s[..|TrimRight(s)|]
    ensures TrimRight(s) == [] || !IsSpace(TrimRight(s)[|TrimRight(s)| - 1])
    ensures forall i :: |TrimRight(s)| <= i < |s| ==> IsSpace(s[i])
  {
    if |s| > 0 && IsSpace(s[|s| - 1]) {
      TrimRightSpec(s[..|s| - 1]);
    }
  }

  /** `strip()` keeps an infix of its input that neither starts nor ends with whitespace, and
      everything it removes around that infix is whitespace. */
  lemma StripSpec(s: string)
    ensures exists lo ::
              && OccursAt(Strip(s), s, lo)
              && (forall i :: 0 <= i < lo ==> IsSpace(s[i]))
              && (forall i :: lo + |Strip(s)| <= i < |s| ==> IsSpace(s[i]))
    ensures Strip(s) == [] || (!IsSpace(Strip(s)[0]) && !IsSpace(Strip(s)[|Strip(s)| - 1]))
  {
    var left := TrimLeft(s);
    TrimLeftSpec(s);
    TrimRightSpec(left);
    var lo := |s| - |left|;
    assert OccursAt(Strip(s), s, lo);
    forall i | lo + |Strip(s)| <= i < |s|
      ensures IsSpace(s[i])
    {
      assert s[i] == left[i - lo];
    }
    if Strip(s) != [] {
      assert Strip(s)[0] == left[0];
    }
  }

  predicate AllZeros(s: string) {
    forall i :: 0 <= i < |s| ==> s[i] == '0'
  }

  /** Python's `s.lstrip("0")`: what is left after removing the leading run of '0' characters. */
  function LStripZeros(s: string): (r: string)
    ensures |r| <= |s| && r == s[|s| - |r|..]
    ensures AllZeros(s[..|s| - |r|])
    ensures r == [] || r[0] != '0'
  {
    if |s| > 0 && s[0] == '0' then
      var r := LStripZeros(s[1..]);
      assert s[..|s| - |r|] == [s[0]] + s[1..][..|s| - 1 - |r|];
      assert s[|s| - |r|..] == s[1..][|s| - 1 - |r|..];
      r
    else s
  }

  /** Stripping zeros has a unique answer: any split of `s` into a run of zeros followed by a part
      that does not start with '0' is the one `LStripZeros` finds. */
  lemma {:induction false} LStripZerosUnique(zeros: string, rest: string)
    requires AllZeros(zeros)
    requires rest == [] || rest[0] != '0'
    ensures LStripZeros(zeros + rest) == rest
  {
    if zeros != [] {
      assert (zeros + rest)[1..] == zeros[1..] + rest;
      LStripZerosUnique(zeros[1..], rest);
    }
  }

  /** Stripping zeros a second time changes nothing ("03" -> "3" -> "3"). */
  lemma {:induction false} LStripZerosIdempotent(s: string)
    ensures LStripZeros(LStripZeros(s)) == LStripZeros(s)
  {
    LStripZerosUnique([], LStripZeros(s));
  }

  /** Python's `str.isdigit()`, restricted to the ASCII digits. */
  predicate IsDigits(s: string) {
    |s| > 0 && forall i :: 0 <= i < |s| ==> '0' <= s[i] <= '9'
  }

  /** `needle` occurs in `hay` starting at position `i`. */
  predicate OccursAt(needle: string, hay: string, i: int) {
    0 <= i && i + |needle| <= |hay| && hay[i..i + |needle|] == needle
  }

  /** An occurrence stays an occurrence when text is added on either side. */
  lemma OccursInContext(needle: string, a: string, b: string, c: string, i: int)
    requires OccursAt(needle, b, i)
    ensures OccursAt(needle, a + b + c, |a| + i)
  {
    assert (a + b + c)[|a| + i..|a| + i + |needle|] == b[i..i + |needle|];
  }

  /** Python's `needle in hay` on strings, computed by scanning the start positions. */
  function Contains(hay: string, needle: string): (b: bool)
    ensures b <==> exists i :: OccursAt(needle, hay, i)
    decreases |hay|
  {
    if |hay| < |needle| then
      assert forall i :: !OccursAt(needle, hay, i);
      false
    else if hay[..|needle|] == needle then
      assert OccursAt(needle, hay, 0);
      true
    else
      var b := Contains(hay[1..], needle);
      assert forall i :: OccursAt(needle, hay[1..], i) <==> OccursAt(needle, hay, i + 1) by {
        forall i ensures OccursAt(needle, hay[1..], i) <==> OccursAt(needle, hay, i + 1) {
          if 0 <= i && i + |needle| <= |hay| - 1 {
            assert hay[1..][i..i + |needle|] == hay[i + 1..i + 1 + |needle|];
          }
        }
      }
      assert forall i :: OccursAt(needle, hay, i) ==> i == 0 || OccursAt(needle, hay[1..], i - 1);
      b
  }
}

=== FILE: topscorers.dfy ===
/** The goalscorer-table interpretation: a fold over the data rows that carries the
    rowspan state from row to row, reads every cell by a fixed set of rules and zips each
    row's values against the fixed five column labels. */
module Topscorers {
  import opened Wrappers
  import opened Strings
  import opened Dom
  import opened Records

  /** The record labels, in column order. */
  const Headers: seq<string> := ["Pl.", "Nat.", "Spieler", "Verein", "Tore"]

  /** A goalscorer record: label to value, where a value carried from an unset span cache is None. */
  type Record = map<string, Option<string>>

  /** The state threaded through the rows of one table: the span countdown (`row_span_index`),
      the length of the last declared span (`row_span_start`), the two span caches and the
      last non-empty placement value (`last_pl`). */
  datatype SpanState = SpanState(index: int, start: int, cachedPl: Option<string>, cachedTore: Option<string>, lastPl: Option<string>)

  const Initial := SpanState(0, 0, None, None, None)

  /** `int(td.get("rowspan"))`, or 0 without the attribute. */
  function RowspanOf(c: Cell): int {
    match c.rowspan
    case None => 0
    case Some(n) => n
  }

  lemma HeadersDistinct()
    ensures forall i, j :: 0 <= i < j < |Headers| ==> Headers[i] != Headers[j]
    ensures forall i :: 0 <= i < |Headers| ==> (Headers[i] == "Pl." <==> i == 0)
  {
    assert Headers[0][0] == 'P' && Headers[1][0] == 'N' && Headers[2][0] == 'S' && Headers[3][0] == 'V' && Headers[4][0] == 'T';
  }

  /** The cell as its contents are read: the last element of a row is read without its first span. */
  function Visible(c: Cell, isLast: bool): Cell {
    if isLast then c.(segments := DropFirstSpan(c.segments)) else c
  }

  /** The nationality marker: the first span's text, taken only when it is non-empty and not
      made of digits (so a hidden "0" or a number is never a nationality). */
  function Nationality(c: Cell): (r: Option<string>)
    ensures r.Some? ==> FirstSpanText(c.segments) == r && r.value != "" && !IsDigits(r.value)
    ensures r.None? ==> FirstSpanText(c.segments).None? || FirstSpanText(c.segments).value == ""
                        || IsDigits(FirstSpanText(c.segments).value)
  {
    match FirstSpanText(c.segments)
    case None => None
    case Some(t) => if t != "0" && !IsDigits(t) && t != "" then Some(t) else None
  }

  /** The value of a cell, chosen by its number of anchors: with one or two anchors the last
      anchor's text, with none or more than two the whole cell text. */
  function CellValue(c: Cell): (v: string)
    ensures var a := AnchorTexts(c.segments);
      && (1 <= |a| <= 2 ==> v == a[|a| - 1])
      && (|a| == 0 || |a| > 2 ==> v == CellText(c))
  {
    var anchors := AnchorTexts(c.segments);
    if |anchors| == 0 then CellText(c)
    else if |anchors| == 1 then anchors[0]
    else if |anchors| == 2 then anchors[1]
    else CellText(c)
  }

  /** The state after one cell and the values the cell appends to the row. */
  datatype CellScan = CellScan(state: SpanState, out: seq<string>)

  /** One iteration of the cell loop: the span bookkeeping, then the nationality and the value,
      then the placement fallback. Column `i` is the element's position among th-then-td cells. */
  function ScanCell(st: SpanState, c: Cell, i: nat, isLast: bool): (r: Result<CellScan, ScrapeError>)
    // the row is too wide, or an empty placement has no earlier placement to fall back on
    ensures r.Failure? <==> i >= |Headers| || (i == 0 && CellValue(Visible(c, isLast)) == "" && st.lastPl.None?)
    ensures r.Failure? ==> r.error == (if i >= |Headers| then ColumnOutOfRange else NoPlacementToReuse)
    // a declared span restarts the countdown and refreshes exactly one cache: Pl. for
    // column 0, Tore for any other column; without one the span state is untouched
    ensures r.Success? ==> var s := r.value.state;
      && (RowspanOf(c) <= 1 ==> s.index == st.index && s.start == st.start && s.cachedPl == st.cachedPl && s.cachedTore == st.cachedTore)
      && (RowspanOf(c) > 1 ==> s.index == RowspanOf(c) && s.start == RowspanOf(c))
      && (RowspanOf(c) > 1 && i == 0 ==> s.cachedPl == Some(LStripZeros(CellText(Visible(c, isLast)))) && s.cachedTore == st.cachedTore)
      && (RowspanOf(c) > 1 && i != 0 ==> s.cachedTore == Some(LStripZeros(CellText(Visible(c, isLast)))) && s.cachedPl == st.cachedPl)
    // last_pl changes only to a non-empty column-0 value
    ensures r.Success? ==>
      r.value.state.lastPl == (if i == 0 && CellValue(Visible(c, isLast)) != "" then Some(CellValue(Visible(c, isLast))) else st.lastPl)
    // the nationality is an element of its own, ahead of the zero-stripped value or the
    // zero-stripped placement fallback
    ensures r.Success? ==> var out := r.value.out; var v := CellValue(Visible(c, isLast)); var marker := Nationality(Visible(c, isLast));
      && |out| == (if marker.Some? then 1 else 0) + (if v != "" || i == 0 then 1 else 0)
      && (marker.Some? ==> out[0] == marker.value)
      && (v != "" ==> out[|out| - 1] == LStripZeros(v))
      && (v == "" && i == 0 ==> out[|out| - 1] == LStripZeros(st.lastPl.value))
  {
    HeadersDistinct();
    ReadCell(st, Visible(c, isLast), RowspanOf(c), i)
  }

  /** The body of the cell loop, given the cell as it is read and its rowspan. */
  function ReadCell(st: SpanState, v: Cell, span: int, i: nat): Result<CellScan, ScrapeError> {
    if i >= |Headers| then Failure(ColumnOutOfRange)
    else
      var st1 := DeclareSpan(st, span, CellText(v), i);
      var value := CellValue(v);
      var out := MarkerAndValue(Nationality(v), value);
      var lastPl := if value != "" && Headers[i] == "Pl." then Some(value) else st.lastPl;
      if Headers[i] == "Pl." && value == "" then
        if lastPl.None? then Failure(NoPlacementToReuse)
        else Success(CellScan(st1.(lastPl := lastPl), out + [LStripZeros(lastPl.value)]))
      else
        Success(CellScan(st1.(lastPl := lastPl), out))
  }

  /** The span bookkeeping of one cell: a rowspan above 1 restarts the countdown and caches the
      cell's zero-stripped text under Pl. (column 0) or Tore (any other column). */
  function DeclareSpan(st: SpanState, span: int, text: string, i: nat): (s: SpanState)
    requires i < |Headers|
    ensures s.lastPl == st.lastPl
    ensures span <= 1 ==> s == st
    ensures span > 1 ==> s.index == span && s.start == span
    ensures span > 1 && i == 0 ==> s.cachedPl == Some(LStripZeros(text)) && s.cachedTore == st.cachedTore
    ensures span > 1 && i != 0 ==> s.cachedTore == Some(LStripZeros(text)) && s.cachedPl == st.cachedPl
  {
    HeadersDistinct();
    if span > 1 then
      if Headers[i] == "Pl." then st.(index := span, start := span, cachedPl := Some(LStripZeros(text)))
      else st.(index := span, start := span, cachedTore := Some(LStripZeros(text)))
    else st
  }

  /** The nationality (if any) as an element of its own, then the zero-stripped value (if non-empty). */
  function MarkerAndValue(marker: Option<string>, value: string): (out: seq<string>)
    ensures |out| == (if marker.Some? then 1 else 0) + (if value != "" then 1 else 0)
    ensures marker.Some? ==> out[0] == marker.value
    ensures value != "" ==> out[|out| - 1] == LStripZeros(value)
  {
    (if marker.Some? then [marker.value] else []) + (if value != "" then [LStripZeros(value)] else [])
  }

  /** The rowspan of the last element from position `i` on that declares a span (> 1), or 0. */
  function DeclaredSpan(elems: seq<Cell>, i: nat): (n: int)
    requires i <= |elems|
    ensures n == 0 || n > 1
    decreases |elems| - i
  {
    if i == |elems| then 0
    else
      var later := DeclaredSpan(elems, i + 1);
      if later > 1 then later else if RowspanOf(elems[i]) > 1 then RowspanOf(elems[i]) else 0
  }

  /** The cell loop from element `i` on. */
  function ScanCells(st: SpanState, elems: seq<Cell>, i: nat): (r: Result<CellScan, ScrapeError>)
    requires i <= |elems|
    ensures i < |elems| && |elems| > |Headers| ==> r.Failure?
    ensures r.Success? ==> var s := r.value.state;
      && (DeclaredSpan(elems, i) > 1 ==> s.index == DeclaredSpan(elems, i) && s.start == DeclaredSpan(elems, i))
      && (DeclaredSpan(elems, i) == 0 ==> s.index == st.index && s.start == st.start
                                          && s.cachedPl == st.cachedPl && s.cachedTore == st.cachedTore)
      && (st.cachedPl.Some? ==> s.cachedPl.Some?)
      && (st.cachedTore.Some? ==> s.cachedTore.Some?)
    ensures r.Success? && i == 0 && |elems| > 0 ==> |r.value.out| > 0
    decreases |elems| - i
  {
    if i == |elems| then Success(CellScan(st, []))
    else
      var head :- ScanCell(st, elems[i], i, i == |elems| - 1);
      var rest :- ScanCells(head.state, elems, i + 1);
      Success(CellScan(rest.state, head.out + rest.out))
  }

  /** What one row did: skipped as a note row, or scanned into its values, with `carried`
      telling whether the cached span values were put around them. */
  datatype RowStep = Skipped | Scanned(after: SpanState, cols: seq<Option<string>>, carried: bool)

  /** The row's values sit between the cached Pl. value and the cached Tore value. */
  predicate Wrapped(cols: seq<Option<string>>, pl: Option<string>, tore: Option<string>) {
    |cols| >= 2 && cols[0] == pl && cols[|cols| - 1] == tore
  }

  function NextState(st: SpanState, step: RowStep): SpanState {
    if step.Skipped? then st else step.after
  }

  function Lift(vals: seq<string>): (r: seq<Option<string>>)
    ensures |r| == |vals| && forall k :: 0 <= k < |r| ==> r[k] == Some(vals[k])
  {
    seq(|vals|, k requires 0 <= k < |vals| => Some(vals[k]))
  }

  /** One iteration of the row loop. */
  function ProcessRow(st: SpanState, row: Row): (r: Result<RowStep, ScrapeError>)
    // a note row (exactly one th/td element) is skipped before any state change
    ensures |Elements(row)| == 1 <==> r == Success(Skipped)
    ensures |Elements(row)| > |Headers| ==> r.Failure?
    // the countdown restarts at a declared span and goes down by one per scanned row; the
    // cached values go around the row exactly when an earlier span is still counting down
    ensures r.Success? && r.value.Scanned? ==>
      var s := r.value.after; var declared := DeclaredSpan(Elements(row), 0);
      && s.start == (if declared > 1 then declared else st.start)
      && s.index == (if declared > 1 then declared else st.index) - 1
      && (declared == 0 ==> s.cachedPl == st.cachedPl && s.cachedTore == st.cachedTore)
      && (r.value.carried <==> declared == 0 && 1 <= st.index < st.start)
      && (r.value.carried ==> Wrapped(r.value.cols, s.cachedPl, s.cachedTore))
      && (!r.value.carried ==> forall k :: 0 <= k < |r.value.cols| ==> r.value.cols[k].Some?)
      && (|Elements(row)| >= 2 ==> |r.value.cols| > 0)
  {
    var elems := Elements(row);
    if |elems| == 1 then Success(Skipped)
    else
      var scan :- ScanCells(st, elems, 0);
      var s := scan.state;
      var carried := 1 <= s.index && s.index < s.start;
      var cols := if carried then [s.cachedPl] + Lift(scan.out) + [s.cachedTore] else Lift(scan.out);
      Success(Scanned(s.(index := s.index - 1), cols, carried))
  }

  /** The row loop over the data rows; the result lists what each row did. */
  function RunRows(st: SpanState, rows: seq<Row>): (r: Result<seq<RowStep>, ScrapeError>)
    ensures r.Success? ==> |r.value| == |rows|
    decreases |rows|
  {
    if rows == [] then Success([])
    else
      var step :- ProcessRow(st, rows[0]);
      var rest :- RunRows(NextState(st, step), rows[1..]);
      Success([step] + rest)
  }

  /** `entry[headers[i]] = col` for every value that has a label. */
  function Assemble(cols: seq<Option<string>>): (e: Record)
    ensures e.Keys == set i | 0 <= i < Min(|Headers|, |cols|) :: Headers[i]
    ensures forall i :: 0 <= i < Min(|Headers|, |cols|) ==> e[Headers[i]] == cols[i]
  {
    HeadersDistinct();
    ZipDistinct(Headers, cols);
    Zip(Headers, cols)
  }

  /** The records of the scanned rows whose value list is not empty, in row order. */
  function Emitted(steps: seq<RowStep>): (r: seq<Record>)
    ensures |r| <= |steps|
    ensures forall k :: 0 <= k < |r| ==> "Pl." in r[k] && r[k].Keys <= set i | 0 <= i < |Headers| :: Headers[i]
  {
    if steps == [] then []
    else
      var rest := Emitted(steps[1..]);
      if steps[0].Scanned? && |steps[0].cols| > 0 then
        assert Headers[0] == "Pl.";
        [Assemble(steps[0].cols)] + rest
      else rest
  }

  /** Number of rows that are not note rows, i.e. that the row loop scans. */
  function ScannedRowCount(rows: seq<Row>): (n: nat)
    ensures n <= |rows|
  {
    if rows == [] then 0 else (if |Elements(rows[0])| == 1 then 0 else 1) + ScannedRowCount(rows[1..])
  }

  /** Number of rows with at least two elements. */
  function FullRowCount(rows: seq<Row>): (n: nat)
    ensures n <= |rows|
  {
    if rows == [] then 0 else (if |Elements(rows[0])| >= 2 then 1 else 0) + FullRowCount(rows[1..])
  }

  /** No row with two or more elements is dropped, and note rows never yield a record. */
  lemma {:induction false} RecordCountBounds(st: SpanState, rows: seq<Row>)
    requires RunRows(st, rows).Success?
    ensures FullRowCount(rows) <= |Emitted(RunRows(st, rows).value)| <= ScannedRowCount(rows)
    decreases |rows|
  {
    if rows != [] {
      RunRowsHead(st, rows);
      var step := ProcessRow(st, rows[0]).value;
      RecordCountBounds(NextState(st, step), rows[1..]);
    }
  }

  /** `parse_topscorers`: every row after the first is a data row. */
  function ParseTopscorers(t: Table): (r: Result<seq<Record>, ScrapeError>)
    ensures r.Success? ==> forall k :: 0 <= k < |r.value| ==> "Pl." in r.value[k] && r.value[k].Keys <= set i | 0 <= i < |Headers| :: Headers[i]
    ensures r.Success? && |t.rows| > 0 ==> FullRowCount(t.rows[1..]) <= |r.value| <= ScannedRowCount(t.rows[1..])
    ensures (exists k :: 1 <= k < |t.rows| && |Elements(t.rows[k])| > |Headers|) ==> r.Failure?
    // a table without rows has no records; otherwise the records are those of the row loop's steps
    ensures |t.rows| == 0 ==> r == Success([])
    ensures |t.rows| > 0 ==> (r.Success? <==> RunRows(Initial, t.rows[1..]).Success?)
    ensures |t.rows| > 0 && r.Success? ==> r.value == Emitted(RunRows(Initial, t.rows[1..]).value)
  {
    var dataRows := if |t.rows| == 0 then [] else t.rows[1..];
    var runResult := RunRows(Initial, dataRows);
    if runResult.Success? then
      RecordCountBounds(Initial, dataRows);
      assert forall k :: 1 <= k < |t.rows| ==> |Elements(t.rows[k])| <= |Headers| by {
        forall k | 1 <= k < |t.rows|
          ensures |Elements(t.rows[k])| <= |Headers|
        {
          RunRowsAt(Initial, dataRows, k - 1);
          assert dataRows[k - 1] == t.rows[k];
        }
      }
      Success(Emitted(runResult.value))
    else
      Failure(runResult.error)
  }

  /** The last element of a row is read exactly as if its first span were not there: the
      hidden marker's text (a "0" placeholder in the goals column) reaches neither the cached
      text, the nationality, the anchors nor the value. */
  lemma HiddenMarkerIgnored(st: SpanState, c: Cell, i: nat, p: seq<Segment>, h: string, q: seq<Segment>)
    requires c.segments == p + [Span(h)] + q && NoSpan(p)
    ensures ScanCell(st, c, i, true) == ScanCell(st, c.(segments := p + q), i, false)
  {
    HiddenSpanRemoved(c, p, h, q);
    assert RowspanOf(c) == RowspanOf(c.(segments := p + q));
  }

  /** The last element is read as the cell without its first span, whose text is part of the
      raw cell text but not of the text read. */
  lemma HiddenSpanRemoved(c: Cell, p: seq<Segment>, h: string, q: seq<Segment>)
    requires c.segments == p + [Span(h)] + q && NoSpan(p)
    ensures Visible(c, true) == c.(segments := p + q)
    ensures CellText(c) == JoinTexts(p) + Strip(h) + JoinTexts(q)
    ensures CellText(Visible(c, true)) == JoinTexts(p) + JoinTexts(q)
  {
    DropFirstSpanSplit(p, h, q);
    SpanTextInCell(p, h, q);
    DropFirstSpanText(p, h, q);
  }

  /** The first step of a successful row loop is the first row's step, and the rest of the loop
      starts from the state that step leaves. */
  lemma RunRowsHead(st: SpanState, rows: seq<Row>)
    requires rows != [] && RunRows(st, rows).Success?
    ensures ProcessRow(st, rows[0]).Success?
    ensures RunRows(st, rows).value[0] == ProcessRow(st, rows[0]).value
    ensures RunRows(NextState(st, ProcessRow(st, rows[0]).value), rows[1..]).Success?
    ensures RunRows(st, rows).value[1..] == RunRows(NextState(st, ProcessRow(st, rows[0]).value), rows[1..]).value
  {
  }

  /** A note row, or a row that declares no span, leaves start and caches alone, counts the countdown down by
      one unless it is a note row, and is carried exactly when the countdown is in range. */
  lemma QuietRow(st: SpanState, row: Row)
    requires ProcessRow(st, row).Success? && (|Elements(row)| == 1 || DeclaredSpan(Elements(row), 0) == 0)
    ensures var step := ProcessRow(st, row).value; var next := NextState(st, step);
      && next.start == st.start && next.cachedPl == st.cachedPl && next.cachedTore == st.cachedTore
      && next.index == st.index - (if |Elements(row)| == 1 then 0 else 1)
      && (step.Scanned? ==> (step.carried <==> 1 <= st.index < st.start))
      && (step.Scanned? && step.carried ==>
            Wrapped(step.cols, st.cachedPl, st.cachedTore))
  {
  }

  /** In a successful row loop, row k was skipped exactly when it is a note row, and no other
      row has more than five elements. */
  lemma {:induction false} RunRowsAt(st: SpanState, rows: seq<Row>, k: nat)
    requires k < |rows| && RunRows(st, rows).Success?
    ensures RunRows(st, rows).value[k].Skipped? <==> |Elements(rows[k])| == 1
    ensures |Elements(rows[k])| == 1 || |Elements(rows[k])| <= |Headers|
    decreases k
  {
    RunRowsHead(st, rows);
    if k > 0 {
      var next := NextState(st, ProcessRow(st, rows[0]).value);
      assert RunRows(st, rows).value[k] == RunRows(next, rows[1..]).value[k - 1];
      assert rows[k] == rows[1..][k - 1];
      RunRowsAt(next, rows[1..], k - 1);
    }
  }

  /** No row of `rows` that is read declares a span: a note row is skipped before its
      rowspan is looked at, so its rowspan does not matter. */
  predicate QuietRows(rows: seq<Row>) {
    rows == [] || ((|Elements(rows[0])| == 1 || DeclaredSpan(Elements(rows[0]), 0) == 0) && QuietRows(rows[1..]))
  }

  lemma ScannedRowCountSplit(rows: seq<Row>, k: nat)
    requires 1 <= k <= |rows|
    ensures ScannedRowCount(rows[..k]) == (if |Elements(rows[0])| == 1 then 0 else 1) + ScannedRowCount(rows[1..][..k - 1])
  {
    assert rows[..k][0] == rows[0] && rows[..k][1..] == rows[1..][..k - 1];
  }

  /** The first step of a loop over rows that declare no span, and the state it hands on. */
  lemma QuietFirstStep(st: SpanState, rows: seq<Row>)
    requires rows != [] && RunRows(st, rows).Success? && QuietRows(rows)
    ensures var step := RunRows(st, rows).value[0]; var next := NextState(st, step);
      && RunRows(next, rows[1..]).Success?
      && RunRows(st, rows).value[1..] == RunRows(next, rows[1..]).value
      && QuietRows(rows[1..])
      && next.start == st.start && next.cachedPl == st.cachedPl && next.cachedTore == st.cachedTore
      && next.index == st.index - ScannedRowCount(rows[..1])
      && (step.Scanned? ==> (step.carried <==> 1 <= st.index < st.start))
      && (step.Scanned? && step.carried ==>
            Wrapped(step.cols, st.cachedPl, st.cachedTore))
  {
    RunRowsHead(st, rows);
    QuietRow(st, rows[0]);
    assert rows[..1][1..] == [];
  }

  /** While no row declares a new span, the countdown runs down by one per scanned row (note
      rows do not count): row k gets the cached values, unchanged, exactly when the countdown
      it meets is between 1 and the span length. */
  lemma {:induction false} CarryAt(st: SpanState, rows: seq<Row>, k: nat)
    requires k < |rows| && RunRows(st, rows).Success?
    requires QuietRows(rows)
    requires RunRows(st, rows).value[k].Scanned?
    ensures var step := RunRows(st, rows).value[k];
      && (step.carried <==> 1 <= st.index - ScannedRowCount(rows[..k]) < st.start)
      && (step.carried ==> Wrapped(step.cols, st.cachedPl, st.cachedTore))
    decreases k
  {
    QuietFirstStep(st, rows);
    if k == 0 {
      assert rows[..0] == [];
    } else {
      var next := NextState(st, RunRows(st, rows).value[0]);
      assert RunRows(st, rows).value[k] == RunRows(next, rows[1..]).value[k - 1];
      CarryAt(next, rows[1..], k - 1);
      ScannedRowCountSplit(rows, k);
    }
  }

  /** A span of n > 1 declared in a row puts the cached Pl. and Tore values around exactly the
      next n - 1 scanned rows (as long as no row declares a new span); the declaring row itself
      gets no carried values. */
  lemma {:induction false} SpanLasts(st: SpanState, rows: seq<Row>)
    requires |rows| >= 1 && |Elements(rows[0])| != 1
    requires DeclaredSpan(Elements(rows[0]), 0) > 1
    requires QuietRows(rows[1..])
    requires RunRows(st, rows).Success?
    ensures var steps := RunRows(st, rows).value; var n := DeclaredSpan(Elements(rows[0]), 0);
      && steps[0].Scanned? && !steps[0].carried
      && forall k :: 1 <= k < |rows| && steps[k].Scanned? ==>
           && (steps[k].carried <==> ScannedRowCount(rows[1..k]) < n - 1)
           && (steps[k].carried ==> Wrapped(steps[k].cols, steps[0].after.cachedPl, steps[0].after.cachedTore))
  {
    DeclaringStep(st, rows);
    var steps := RunRows(st, rows).value;
    var decl := steps[0].after;
    forall k | 1 <= k < |rows| && steps[k].Scanned?
      ensures steps[k].carried <==> ScannedRowCount(rows[1..k]) < DeclaredSpan(Elements(rows[0]), 0) - 1
      ensures steps[k].carried ==> Wrapped(steps[k].cols, decl.cachedPl, decl.cachedTore)
    {
      assert steps[k] == RunRows(decl, rows[1..]).value[k - 1];
      CarryAt(decl, rows[1..], k - 1);
      ScannedRowCountSlice(rows, k);
    }
  }

  lemma ScannedRowCountSlice(rows: seq<Row>, k: nat)
    requires 1 <= k <= |rows|
    ensures ScannedRowCount(rows[1..][..k - 1]) == ScannedRowCount(rows[1..k])
  {
    assert rows[1..][..k - 1] == rows[1..k];
  }

  /** The row that declares a span is scanned without carried values, and leaves the countdown
      one below the span length for the rows after it. */
  lemma DeclaringStep(st: SpanState, rows: seq<Row>)
    requires |rows| >= 1 && |Elements(rows[0])| != 1
    requires DeclaredSpan(Elements(rows[0]), 0) > 1
    requires RunRows(st, rows).Success?
    ensures var step := RunRows(st, rows).value[0]; var n := DeclaredSpan(Elements(rows[0]), 0);
      && step.Scanned? && !step.carried
      && step.after.index == n - 1 && step.after.start == n
      && RunRows(step.after, rows[1..]).Success?
      && RunRows(st, rows).value[1..] == RunRows(step.after, rows[1..]).value
  {
    RunRowsHead(st, rows);
  }

  lemma {:induction false} AllFullRows(rows: seq<Row>)
    requires forall k :: 0 <= k < |rows| ==> |Elements(rows[k])| >= 2
    ensures FullRowCount(rows) == |rows|
  {
    if rows != [] {
      AllFullRows(rows[1..]);
    }
  }

  /** A table without note rows (every data row has at least two elements) yields exactly one
      record per data row. */
  lemma NoNoteRowsNoLoss(t: Table)
    requires |t.rows| > 0
    requires forall k :: 1 <= k < |t.rows| ==> |Elements(t.rows[k])| >= 2
    requires ParseTopscorers(t).Success?
    ensures |ParseTopscorers(t).value| == |t.rows| - 1
  {
    AllFullRows(t.rows[1..]);
  }

  /** A nationality is taken exactly when the first span holds non-empty, non-numeric text, and
      it is then text the cell shows. */
  lemma NationalityInText(c: Cell)
    ensures Nationality(c).Some? <==>
              FirstSpanText(c.segments).Some? && FirstSpanText(c.segments).value != "" && !IsDigits(FirstSpanText(c.segments).value)
    ensures Nationality(c).Some? ==>
              Nationality(c) == FirstSpanText(c.segments) && exists i :: OccursAt(Nationality(c).value, CellText(c), i)
  {
    FirstSpanInText(c.segments);
    if Nationality(c).Some? {
      var i :| OccursAt(FirstSpanText(c.segments).value, JoinTexts(c.segments), i);
      assert OccursAt(Nationality(c).value, CellText(c), i);
    }
  }

  /** A cell's value is always text the cell shows: the last of one or two anchors, else the
      whole cell text. */
  lemma CellValueInText(c: Cell)
    ensures exists i :: OccursAt(CellValue(c), CellText(c), i)
    ensures 1 <= |AnchorTexts(c.segments)| <= 2 ==> CellValue(c) in AnchorTexts(c.segments)
    ensures !(1 <= |AnchorTexts(c.segments)| <= 2) ==> CellValue(c) == CellText(c)
  {
    var a := AnchorTexts(c.segments);
    if 1 <= |a| <= 2 {
      assert CellValue(c) == a[|a| - 1] && a[|a| - 1] in a;
      AnchorTextsInText(c.segments);
      var i :| OccursAt(CellValue(c), JoinTexts(c.segments), i);
      assert OccursAt(CellValue(c), CellText(c), i);
    } else {
      assert CellValue(c) == CellText(c);
      assert OccursAt(CellValue(c), CellText(c), 0);
    }
  }

  /** The declared span of a row is the rowspan of the last element declaring one (above 1),
      and 0 exactly when no element declares one. */
  lemma {:induction false} DeclaredSpanIsLast(elems: seq<Cell>, i: nat)
    requires i <= |elems|
    ensures DeclaredSpan(elems, i) == 0 <==> forall j :: i <= j < |elems| ==> RowspanOf(elems[j]) <= 1
    ensures DeclaredSpan(elems, i) > 1 ==>
              exists j :: i <= j < |elems| && RowspanOf(elems[j]) == DeclaredSpan(elems, i)
                          && forall j' :: j < j' < |elems| ==> RowspanOf(elems[j']) <= 1
    decreases |elems| - i
  {
    if i < |elems| {
      DeclaredSpanIsLast(elems, i + 1);
      var later := DeclaredSpan(elems, i + 1);
      if later > 1 {
        var j :| i + 1 <= j < |elems| && RowspanOf(elems[j]) == later
                 && forall j' :: j < j' < |elems| ==> RowspanOf(elems[j']) <= 1;
        assert RowspanOf(elems[j]) == DeclaredSpan(elems, i);
      } else if RowspanOf(elems[i]) > 1 {
        assert forall j' :: i < j' < |elems| ==> RowspanOf(elems[j']) <= 1;
      }
    }
  }

  /** The values one cell adds to its row, read off the cell alone: the nationality, then the
      zero-stripped value, or for an empty placement the zero-stripped `fallback` placement. */
  function CellOut(fallback: Option<string>, c: Cell, i: nat, isLast: bool): seq<string> {
    var v := Visible(c, isLast);
    MarkerAndValue(Nationality(v), CellValue(v))
      + (if i == 0 && CellValue(v) == "" && fallback.Some? then [LStripZeros(fallback.value)] else [])
  }

  /** The values of the elements from position `i` on, cell after cell. */
  function RowValues(fallback: Option<string>, elems: seq<Cell>, i: nat): seq<string>
    requires i <= |elems|
    decreases |elems| - i
  {
    if i == |elems| then [] else CellOut(fallback, elems[i], i, i == |elems| - 1) + RowValues(fallback, elems, i + 1)
  }

  /** Only column 0 falls back on the last placement. */
  lemma {:induction false} RowValuesTail(f: Option<string>, g: Option<string>, elems: seq<Cell>, i: nat)
    requires 0 < i <= |elems|
    ensures RowValues(f, elems, i) == RowValues(g, elems, i)
    decreases |elems| - i
  {
    if i < |elems| {
      RowValuesTail(f, g, elems, i + 1);
    }
  }

  /** The values the cell loop collects are the cells' own values in element order, whatever
      the span state; only an empty placement reads the state, namely the last placement. */
  lemma {:induction false} ScanCellsValues(st: SpanState, elems: seq<Cell>, i: nat)
    requires i <= |elems|
    requires ScanCells(st, elems, i).Success?
    ensures ScanCells(st, elems, i).value.out == RowValues(st.lastPl, elems, i)
    decreases |elems| - i
  {
    if i < |elems| {
      var isLast := i == |elems| - 1;
      var head := ScanCell(st, elems[i], i, isLast).value;
      HeadersDistinct();
      assert head.out == CellOut(st.lastPl, elems[i], i, isLast);
      ScanCellsValues(head.state, elems, i + 1);
      RowValuesTail(head.state.lastPl, st.lastPl, elems, i + 1);
    }
  }

  /** A scanned row's value list is the row's own values, put between the cached Pl. and Tore
      values when the row is carried. */
  lemma ProcessRowValues(st: SpanState, row: Row)
    requires ProcessRow(st, row).Success? && ProcessRow(st, row).value.Scanned?
    ensures var step := ProcessRow(st, row).value; var vals := Lift(RowValues(st.lastPl, Elements(row), 0));
      step.cols == if step.carried then [step.after.cachedPl] + vals + [step.after.cachedTore] else vals
  {
    ScanCellsValues(st, Elements(row), 0);
  }

  /** The record of a scanned row: an uncarried row maps the labels to its own values in order;
      a carried row maps Pl. to the cached placement, the next labels to its own values and the
      label after them to the cached goals. */
  lemma RowRecord(st: SpanState, row: Row)
    requires ProcessRow(st, row).Success? && ProcessRow(st, row).value.Scanned?
    ensures var step := ProcessRow(st, row).value; var vals := RowValues(st.lastPl, Elements(row), 0);
      var e := Assemble(step.cols);
      && |step.cols| == |vals| + (if step.carried then 2 else 0)
      && (!step.carried ==> forall k :: 0 <= k < Min(|Headers|, |vals|) ==> e[Headers[k]] == Some(vals[k]))
      && (step.carried ==>
            && e["Pl."] == step.after.cachedPl
            && (forall k :: 1 <= k <= |vals| && k < |Headers| ==> e[Headers[k]] == Some(vals[k - 1]))
            && (|vals| + 1 < |Headers| ==> e[Headers[|vals| + 1]] == step.after.cachedTore))
  {
    ProcessRowValues(st, row);
    var step := ProcessRow(st, row).value;
    var vals := RowValues(st.lastPl, Elements(row), 0);
    if step.carried {
      assert Headers[0] == "Pl.";
      WrappedRecord(vals, step.after.cachedPl, step.after.cachedTore);
    } else {
      LiftedRecord(vals);
    }
  }

  lemma LiftedRecord(vals: seq<string>)
    ensures forall k :: 0 <= k < Min(|Headers|, |vals|) ==> Assemble(Lift(vals))[Headers[k]] == Some(vals[k])
  {
  }

  lemma WrappedRecord(vals: seq<string>, pl: Option<string>, tore: Option<string>)
    ensures var cols := [pl] + Lift(vals) + [tore]; var e := Assemble(cols);
      && |cols| == |vals| + 2
      && e[Headers[0]] == pl
      && (forall k :: 1 <= k <= |vals| && k < |Headers| ==> e[Headers[k]] == Some(vals[k - 1]))
      && (|vals| + 1 < |Headers| ==> e[Headers[|vals| + 1]] == tore)
  {
    var cols := [pl] + Lift(vals) + [tore];
    assert cols[0] == pl;
    assert forall k :: 1 <= k <= |vals| ==> cols[k] == Some(vals[k - 1]);
  }

  /** Records come out in row order: one more step appends its record (if any) at the end. */
  lemma {:induction false} EmittedSnoc(steps: seq<RowStep>, step: RowStep)
    ensures Emitted(steps + [step]) == Emitted(steps) + (if step.Scanned? && |step.cols| > 0 then [Assemble(step.cols)] else [])
  {
    if steps == [] {
      assert steps + [step] == [step];
      assert [step][1..] == [];
    } else {
      assert (steps + [step])[0] == steps[0];
      assert (steps + [step])[1..] == steps[1..] + [step];
      EmittedSnoc(steps[1..], step);
    }
  }

  /** The zero-stripped text of element `j` as it is read, which is what a span declared there caches. */
  function SpanText(elems: seq<Cell>, j: nat): string
    requires j < |elems|
  {
    LStripZeros(CellText(Visible(elems[j], j == |elems| - 1)))
  }

  /** What a row's cells leave in `s` for the rows after it, starting from `st`: `last_pl` is
      the first element's value when that is non-empty; the Pl. cache is the first element's
      text when it declares a span; the Tore cache is the text of the last later element that
      declares one. Whatever no element sets is handed on unchanged. */
  ghost predicate LeavesCaches(st: SpanState, elems: seq<Cell>, s: SpanState) {
    && (|elems| == 0 ==> s.lastPl == st.lastPl && s.cachedPl == st.cachedPl)
    && (|elems| > 0 ==>
          var v0 := Visible(elems[0], |elems| == 1);
          && s.lastPl == (if CellValue(v0) != "" then Some(CellValue(v0)) else st.lastPl)
          && s.cachedPl == (if RowspanOf(elems[0]) > 1 then Some(SpanText(elems, 0)) else st.cachedPl))
    && ToreLeft(st, elems, 1, s)
  }

  /** The Tore cache after the elements from position `i` on: unchanged when none of them
      declares a span, else the text of the last one that does. */
  ghost predicate ToreLeft(st: SpanState, elems: seq<Cell>, i: nat, s: SpanState) {
    && ((forall j :: i <= j < |elems| ==> RowspanOf(elems[j]) <= 1) ==> s.cachedTore == st.cachedTore)
    && ((exists j :: i <= j < |elems| && RowspanOf(elems[j]) > 1) ==>
          exists j :: i <= j < |elems| && RowspanOf(elems[j]) > 1 && s.cachedTore == Some(SpanText(elems, j))
                      && forall j' :: j < j' < |elems| ==> RowspanOf(elems[j']) <= 1)
  }

  /** Elements after the first change neither `last_pl` nor the Pl. cache. */
  lemma {:induction false} LaterCellsKeep(st: SpanState, elems: seq<Cell>, i: nat)
    requires 0 < i <= |elems| && ScanCells(st, elems, i).Success?
    ensures ScanCells(st, elems, i).value.state.lastPl == st.lastPl
    ensures ScanCells(st, elems, i).value.state.cachedPl == st.cachedPl
    decreases |elems| - i
  {
    if i < |elems| {
      var head := ScanCell(st, elems[i], i, i == |elems| - 1).value;
      LaterCellsKeep(head.state, elems, i + 1);
    }
  }

  /** Elements after the first set the Tore cache, the last declaring one winning. */
  lemma {:induction false} LaterCellsTore(st: SpanState, elems: seq<Cell>, i: nat)
    requires 0 < i <= |elems| && ScanCells(st, elems, i).Success?
    ensures ToreLeft(st, elems, i, ScanCells(st, elems, i).value.state)
    decreases |elems| - i
  {
    if i < |elems| {
      var head := ScanCell(st, elems[i], i, i == |elems| - 1).value;
      var s := ScanCells(st, elems, i).value.state;
      assert s == ScanCells(head.state, elems, i + 1).value.state;
      LaterCellsTore(head.state, elems, i + 1);
      if exists j :: i + 1 <= j < |elems| && RowspanOf(elems[j]) > 1 {
        var j :| i + 1 <= j < |elems| && RowspanOf(elems[j]) > 1 && s.cachedTore == Some(SpanText(elems, j))
                 && forall j' :: j < j' < |elems| ==> RowspanOf(elems[j']) <= 1;
        assert i <= j;
      } else if RowspanOf(elems[i]) > 1 {
        assert s.cachedTore == Some(SpanText(elems, i));
      } else {
        assert forall j :: i <= j < |elems| ==> RowspanOf(elems[j]) <= 1;
      }
    } else {
      assert ScanCells(st, elems, i).value.state == st;
    }
  }

  /** The cell loop over a whole row leaves `last_pl` and the caches as its cells say. */
  lemma RowCaches(st: SpanState, elems: seq<Cell>)
    requires ScanCells(st, elems, 0).Success?
    ensures LeavesCaches(st, elems, ScanCells(st, elems, 0).value.state)
  {
    var s := ScanCells(st, elems, 0).value.state;
    if |elems| == 0 {
      assert s == st;
      assert ToreLeft(st, elems, 1, s);
    } else {
      var head := ScanCell(st, elems[0], 0, 0 == |elems| - 1).value;
      assert s == ScanCells(head.state, elems, 1).value.state;
      LaterCellsKeep(head.state, elems, 1);
      LaterCellsTore(head.state, elems, 1);
      assert head.state.cachedTore == st.cachedTore;
    }
  }

  /** A scanned row hands on the `last_pl` and caches its cells leave. */
  lemma ProcessRowCaches(st: SpanState, row: Row)
    requires ProcessRow(st, row).Success? && ProcessRow(st, row).value.Scanned?
    ensures LeavesCaches(st, Elements(row), ProcessRow(st, row).value.after)
  {
    RowCaches(st, Elements(row));
    var s := ScanCells(st, Elements(row), 0).value.state;
    var after := ProcessRow(st, row).value.after;
    assert after == s.(index := s.index - 1);
  }

  /** The span fill: after a row that declares a span, every carried row's record has as its
      Pl. value the cache the declaring row left (its first element's zero-stripped text when
      that element declares the span), and the row's last value is the Tore cache it left. */
  lemma SpanFill(st: SpanState, rows: seq<Row>)
    requires |rows| >= 1 && |Elements(rows[0])| != 1
    requires DeclaredSpan(Elements(rows[0]), 0) > 1
    requires QuietRows(rows[1..])
    requires RunRows(st, rows).Success?
    ensures var steps := RunRows(st, rows).value; var decl := steps[0].after;
      && LeavesCaches(st, Elements(rows[0]), decl)
      && forall k :: 1 <= k < |rows| && steps[k].Scanned? && steps[k].carried ==>
           && "Pl." in Assemble(steps[k].cols) && Assemble(steps[k].cols)["Pl."] == decl.cachedPl
           && steps[k].cols[|steps[k].cols| - 1] == decl.cachedTore
  {
    RunRowsHead(st, rows);
    ProcessRowCaches(st, rows[0]);
    SpanLasts(st, rows);
    assert Headers[0] == "Pl.";
  }

  /** Every table starts from a clean span state: until some row declares a span, no row gets
      carried values. */
  lemma NoSpanNoCarry(t: Table, k: nat)
    requires |t.rows| > 0 && QuietRows(t.rows[1..]) && RunRows(Initial, t.rows[1..]).Success?
    requires k < |t.rows| - 1 && RunRows(Initial, t.rows[1..]).value[k].Scanned?
    ensures !RunRows(Initial, t.rows[1..]).value[k].carried
  {
    CarryAt(Initial, t.rows[1..], k);
  }

  /** Every table starts without a placement to fall back on: a first data row whose first
      element has an empty value makes the parse fail. */
  lemma FirstPlacementNeeded(t: Table)
    requires |t.rows| > 1 && |Elements(t.rows[1])| >= 2 && CellValue(Elements(t.rows[1])[0]) == ""
    ensures ParseTopscorers(t) == Failure(NoPlacementToReuse)
  {
    var elems := Elements(t.rows[1]);
    assert Visible(elems[0], false) == elems[0];
    assert ScanCell(Initial, elems[0], 0, false) == Failure(NoPlacementToReuse);
    assert ScanCells(Initial, elems, 0) == Failure(NoPlacementToReuse);
    assert ProcessRow(Initial, t.rows[1]) == Failure(NoPlacementToReuse);
    assert t.rows[1..][0] == t.rows[1];
    assert RunRows(Initial, t.rows[1..]) == Failure(NoPlacementToReuse);
  }
}

=== FILE: wrappers.dfy ===
/** Failure-compatible Option and Result datatypes used throughout the model. */
module Wrappers {

  /** An optional value; stands for Python's `None` versus a present value. */
  datatype Option<+T> = None | Some(value: T)

  /** Either a value or the reason the Python code would have raised. */
  datatype Result<+R, +E> = Success(value: R) | Failure(error: E) {

    predicate IsFailure() {
      Failure?
    }

    function PropagateFailure<U>(): Result<U, E>
      requires Failure?
    {
      Failure(error)
    }

    function Extract(): R
      requires Success?
    {
      value
    }
  }
}
